=== FILE: README.md ===
# MooChat relay and chat page, modelled in Dafny

MooChat is a Moodle block that puts an AI chat box on a course page. The
project models its core: the request handler that relays one student
question to Moodle's text generator, and the page script that runs the chat
box. The handler exists twice, as the web-service function
`send_message::execute` and as the older AJAX script `chat_service.php`.

One request to the handler goes through these steps, in order:

1. It reads the block's settings, applying a default to each unset field.
2. It purges usage records older than seven days.
3. When rate limiting is on, it gets or creates the (block, user) usage
   record. It resets that record when its period has run out, and denies the
   request when the period's count has reached the limit.
4. It decodes the history, and refuses a session whose history already holds
   `2 * maxmessages` entries.
5. It assembles the prompt, hands it to the generator, and counts one
   question only when generation succeeded.

The page keeps its own copy of the conversation. It appends the question
before sending and the answer on success, shows and stores the
remaining-questions count, and locks the input at 0.

The page script expects its `init` to receive the instance id and a table
of localised strings. The block passes only the instance id. The model
therefore has three variants of the page:

- `Deployed`: the page as the block loads it, where every use of a string
  throws;
- `AsWritten`: the script given its strings;
- `Intended`: the script given its strings, with its rate-limit branch
  corrected.

See "## Findings".

The files:

- `wrappers.dfy`: `Option`.
- `text.dfy`: PHP `trim` and ECMAScript `String.prototype.trim` as one
  parameterised trim, and generic string joining.
- `config.dfy`: the block settings and their defaults.
- `usage.dfy`: the usage table, the purge, the gate and the commit.
- `prompt.dfy`: the history and the prompt text.
- `relay.dfy`: one request, which both handlers share.
- `relay_properties.dfy`: per-request properties.
- `quota_period.dfy`: a run of requests within one period.
- `external_service.dfy`: the four-field web-service response.
- `legacy_service.dfy`: the AJAX script's JSON object.
- `chat_client.dfy`: the page as a state machine.
- `session.dfy`: the page and the service composed.

Clock reads are the parameter `now`. The generator's answer is the parameter
`gen`, which is one of three things:

- a response with an optional content field;
- a failure with a message;
- a thrown exception.

The usage table is a map from (instance, user) to record. The database is not
modelled as such.

The model follows the code in these details:

- An empty or blank message is not rejected by the handlers. Only the page
  ignores blank input.
- The rate gate runs before the session cap. A capped request by a new pair
  therefore still creates that pair's usage record.
- A session-cap rejection or a failed generation reports `remaining` as -1
  in the web service, even when rate limiting is on; a rate-limit denial
  reports 0. The legacy script omits the field, except for a rate-limit
  denial, which reports 0.
- Both handlers count a question only after a successful generation.
- A period reset also sets `lastmessage`.

## Model

| member | source | states |
|---|---|---|
| BlockConfig.PeriodSeconds | moochat/classes/external/send_message.php:100 | a period is an hour exactly for the name "hour" and a day for every other name, including unknown ones |
| BlockConfig.Limits | moochat/classes/external/send_message.php:88-100 | a limit exists exactly when the enable flag is PHP-truthy; its count and period name are the configured or default values, and its length is the one that period name selects |
| BlockConfig.SettingsOrDefaults | moochat/classes/external/send_message.php:80-100 | for every configuration, each setting is its stored value when set and the handler's default when unset (the default prompt, 20, "day", 10); the limit is off exactly for an unset, empty or "0" enable flag; the period lasts an hour only for the stored name "hour", else a day |
| BlockConfig.UnconfiguredDefaults | moochat/classes/external/send_message.php:80-93 | an unsaved block uses the default prompt and 20 questions per session with no rate limit; enabling the limit alone gives 10 per day |
| Usage.Purge | moochat/classes/external/send_message.php:83-85 | exactly the records whose last message is at most seven days old survive, unchanged, across all instances and users |
| Usage.PurgeIdempotent | moochat/classes/external/send_message.php:83-85 | purging twice at the same time equals purging once |
| Usage.PurgeKeepsRecent | moochat/classes/external/send_message.php:83-85 | a record younger than the retention window survives the purge unchanged |
| Usage.Commit | moochat/classes/external/send_message.php:186-188 | definition (no contract) of counting a question; what a request commits is stated by RelayProperties.SuccessCountsOne |
| Usage.CheckGate | moochat/classes/external/send_message.php:102-132 | denied exactly when a live record has reached the limit; a missing or expired record is replaced by a fresh one and admitted without comparison; a live record is admitted unchanged and below the limit |
| Prompt.Parse | moochat/classes/external/send_message.php:135-142 | definition (no contract) of the history the handler works with: an unusable parameter becomes the empty history; its use is stated by Relay.Answer and Session.SessionCapAfterExchanges |
| Prompt.TranscriptAppend | moochat/classes/external/send_message.php:158-164 | one more history entry adds exactly that entry's line at the end of the transcript |
| Prompt.SpokenOnly | moochat/classes/external/send_message.php:158-164 | exactly the entries of the history whose role is "user" or "assistant": every kept entry is such an entry of the history, and every such entry is kept |
| Prompt.TranscriptIgnoresUnspoken | moochat/classes/external/send_message.php:158-164 | entries with any other role, or none, leave no trace in the prompt |
| Prompt.Build | moochat/classes/external/send_message.php:155-167 | the prompt starts with the system prompt and a blank line and ends with "User: " + message + "\nAssistant:", with exactly the transcript between |
| Prompt.BuildExample | moochat/classes/external/send_message.php:155-167 | a two-entry history and a question give the expected prompt text, character for character |
| Text.TrimIsTrimmed | moochat/classes/external/send_message.php:198 | a trimmed string begins and ends with a non-whitespace character |
| Text.TrimIsSlice | moochat/classes/external/send_message.php:198 | the trimmed string is a contiguous slice of the input |
| Text.TrimCutsOnlyWhitespace | moochat/classes/external/send_message.php:198 | everything cut from either end is whitespace |
| Text.TrimEmptyIffBlank | moochat/amd/src/chat.js:46-50 | trimming gives the empty string exactly when the input is all whitespace |
| Text.TrimIdempotent | moochat/classes/external/send_message.php:198 | trimming twice equals trimming once |
| Relay.FailureMessage | moochat/classes/external/send_message.php:201-217 | the generator's own message unless it is falsy in PHP, then "AI generation failed"; an exception gives "Error: " followed by its message |
| Relay.Answer | moochat/classes/external/send_message.php:135-217 | capped exactly at 2*max entries with a positive max; a prompt is built exactly when not capped; replied exactly when not capped and generation succeeded; the reply is the trimmed content; only a metered reply commits, and it reports the limit minus the new count; unmetered replies report -1 |
| Relay.Process | moochat/classes/external/send_message.php:50-218 | a missing block changes nothing, not even the purge; without rate limiting the table is just purged and no denial occurs; a prompt reaches the generator exactly for replies and generation failures |
| RelayProperties.OnlyOwnRecordChanges | moochat/classes/external/send_message.php:83-132 | every other pair's record is kept or dropped exactly as the purge decides |
| RelayProperties.UnmeteredIgnoresUsage | moochat/classes/external/send_message.php:88-91 | without rate limiting the outcome and prompt do not depend on the usage table, and replies report -1 |
| RelayProperties.ExhaustedDenies | moochat/classes/external/send_message.php:110-121 | a live record at or over the limit yields the rate-limit denial with limit and period, no prompt, and only the purge applied |
| RelayProperties.OthersAdmitted | moochat/classes/external/send_message.php:135-217 | any other request stops at the session cap exactly when the history is full and is otherwise answered exactly when generation succeeds, with the failure message otherwise and the prompt from the decoded history |
| RelayProperties.ThroughGate | moochat/classes/external/send_message.php:91-133 | an admitted metered request is the admitted part run on the purged table holding the live or fresh record |
| RelayProperties.SuccessCountsOne | moochat/classes/external/send_message.php:181-200 | a reply adds exactly one to the admitted count, keeps the period start, sets the last message to now, reports limit minus count, and returns trimmed content |
| RelayProperties.UnansweredCountsNothing | moochat/classes/external/send_message.php:102-152 | an unanswered request changes no count; a new or expired pair is still left with a fresh record |
| RelayProperties.ExpiredLikeAbsent | moochat/classes/external/send_message.php:104-109 | a request on an expired record behaves exactly as if the pair had no record |
| RelayProperties.StaleLikeAbsent | moochat/classes/external/send_message.php:83-85 | a record past retention is gone before the gate, so the request behaves as for a new pair |
| RelayProperties.QuotaNeverExceeded | moochat/classes/external/send_message.php:102-132 | a count within max(limit, 1) stays within it |
| QuotaPeriod.Replay | moochat/classes/external/send_message.php:60-121 | a run of requests to an existing block never reports a missing block, and reports a rate-limit denial only when rate limiting is on |
| QuotaPeriod.LiveStep | moochat/classes/external/send_message.php:110-121 | within the period, a request with any history under the session cap and a successful generation is answered and counted on a live record below the limit, and denied with the record kept at the limit |
| QuotaPeriod.FreshStep | moochat/classes/external/send_message.php:123-132 | such a request from a pair with no live record is answered as question one of a new period, whatever the limit, 0 or less included |
| QuotaPeriod.QuotaRun | moochat/classes/external/send_message.php:102-132 | from c counted, the i-th such request of the period is answered exactly when c+i is below the limit, with the right remaining count, and denied after |
| QuotaPeriod.FullPeriod | moochat/classes/external/send_message.php:102-132 | a new pair whose requests in one period all carry histories under the session cap and get a generation gets exactly the configured number of answers, counting down to 0, then only denials |
| ExternalService.Render | moochat/classes/external/send_message.php:64-216 | success exactly for replies; the error matches the outcome; failures carry an empty reply and -1 remaining, except a rate-limit denial, which carries 0 |
| ExternalService.Execute | moochat/classes/external/send_message.php:50-218 | a successful response always came from a prompt; a failure with 0 remaining only comes from the rate gate of a rate-limited block |
| ExternalService.UnlimitedAlwaysMinusOne | moochat/classes/external/send_message.php:89-192 | without rate limiting every response reports -1 remaining |
| ExternalService.RemainingMatchesStore | moochat/classes/external/send_message.php:185-190 | with rate limiting a success reports the limit minus the stored count |
| ExternalService.FailuresReportMinusOne | moochat/classes/external/send_message.php:144-216 | for any request the rate gate admits, including a live record with questions left and a generator that would have answered a session-capped request, a failure reports -1, and it is a session-cap rejection exactly when the history reaches the cap |
| LegacyService.Render | moochat/chat_service.php:19-153 | only replies carry success and reply; every failure carries only an error, except the rate-limit denial, which also carries remaining 0 |
| LegacyService.Serve | moochat/chat_service.php:11-153 | a success field is only written after a prompt reached the generator |
| LegacyService.AgreesWithExternal | moochat/chat_service.php:11-153 | the legacy script leaves the same usage table and builds the same prompt as the web service, and every field it writes equals the web service's value |
| ChatClient.UpdateRemaining | moochat/amd/src/chat.js:34-42 | the banner shows the number exactly when it is not negative and is hidden otherwise |
| ChatClient.SendMessage | moochat/amd/src/chat.js:45-83 | blank input changes nothing; otherwise the trimmed, non-empty question is appended to the history before the request, which carries that history, and the input is locked |
| ChatClient.OnDone | moochat/amd/src/chat.js:84-129 | as written, given its strings: failures alert, and a 0 remaining is shown with the rate-limit title without being stored; a non-empty success appends the answer, counts it and stores and shows remaining; the input ends unlocked whenever the stored count is not 0 |
| ChatClient.OnDoneWithoutStrings | moochat/amd/src/chat.js:84-129 | on the page as the block loads it (block_moochat.php:178 passes no strings, so the banner update throws at chat.js:36), a denial or an answer with a count of 0 or more leaves the banner unchanged and keeps the input locked, with an answer's count stored; every other response is handled exactly as by OnDone |
| ChatClient.OnFail | moochat/amd/src/chat.js:130-135 | a failed call alerts and unlocks, keeping the history and counts |
| ChatClient.ClearChat | moochat/amd/src/chat.js:161-167 | clearing empties the history and answer count but keeps the remaining count, banner and lock |
| ChatClient.Step | moochat/amd/src/chat.js:169-183 | only a send of non-blank input makes a request, and only a failed call or a failure response alerts; typing, failures and clears leave the remaining count alone; a clear empties the history except on the page as the block loads it, where the clear handler throws first |
| ChatClient.AnswersAppend | moochat/amd/src/chat.js:103-108 | appending a turn adds one answer exactly when it is the assistant's |
| ChatClient.StepKeepsInv | moochat/amd/src/chat.js:45-167 | with its strings, as written and with the intended denial branch alike, every handler keeps the page invariant: locked while a call is in flight, otherwise locked exactly at 0 remaining, and the answer count matches the history |
| ChatClient.RunKeepsInv | moochat/amd/src/chat.js:169-183 | with its strings, as written and as intended, every sequence of events keeps the invariant |
| ChatClient.InitialInv | moochat/amd/src/chat.js:20-22 | the freshly loaded page satisfies the invariant |
| ChatClient.ZeroRemainingIsFinal | moochat/amd/src/chat.js:111-128 | with its strings, as written and as intended, once 0 is stored with no call in flight, the page stays locked at 0 with the same banner whatever happens, clearing included |
| ChatClient.DeployedLockIsFinal | moochat/amd/src/chat.js:170-183 | on the page as the block loads it, a locked page with no call in flight never changes again, clears included |
| ChatClient.MeteredAnswerLocksPage | moochat/amd/src/chat.js:110-128 | on the page as the block loads it, an answer with questions left leaves the input locked for good with the count stored, where the script given its strings unlocks it |
| ChatClient.MeteredAnswerLocksPageExample | moochat/amd/src/chat.js:110-128 | the page as the block loads it, asked one question and answered with 9 remaining, is locked for every later sequence of events |
| ChatClient.DenialReopensInput | moochat/amd/src/chat.js:88-128 | given its strings, as written, a denial when 0 is not stored shows 0 yet leaves the input unlocked |
| ChatClient.DenialReopensInputExample | moochat/amd/src/chat.js:88-128 | the freshly loaded script given its strings, asked one question and denied, shows 0 with the input open |
| ChatClient.OnDoneIntended | moochat/amd/src/chat.js:88-95 | the denial branch stores 0, so the input stays locked; every other response is handled as written |
| ChatClient.IntendedDenialLocks | moochat/amd/src/chat.js:88-128 | with the intended branch, a denial while waiting leaves the page locked with 0 shown for good |
| Session.Encode | moochat/amd/src/chat.js:60-82 | definition (no contract) of the history the page sends, one entry per turn in order; what the server reads from it is stated by Session.EncodeAppend and Session.SessionCapAfterExchanges |
| Session.EncodeAppend | moochat/amd/src/chat.js:60-63 | sending one more turn decodes to one more entry at the end |
| Session.PromptOfEchoedQuestion | moochat/classes/external/send_message.php:155-167 | a history ending with the question gives a prompt that carries it twice |
| Session.PromptRepeatsQuestion | moochat/amd/src/chat.js:57-82 | the page sends the question both in the history and as the message, so the prompt carries it twice |
| Session.SessionCapAfterExchanges | moochat/classes/external/send_message.php:145 | after k answered exchanges the next question is capped exactly when k has reached a positive maximum |
| Session.ClearEscapesSessionCap | moochat/amd/src/chat.js:161-167 | after a clear the next question is never capped, while the remaining count is kept |
| Session.DenialOnPage | moochat/amd/src/chat.js:88-95 | an exhausted quota reaches the page as a 0 banner; as written the input is locked only if 0 was stored; with the intended branch it is locked with 0 stored |
| Session.AnswerShown | moochat/amd/src/chat.js:98-120 | a non-empty success appends question and answer, counts one, and stores and shows remaining, locking at 0 |
| Session.AnswerOnPage | moochat/amd/src/chat.js:45-129 | a question answered by the service ends on the page as question plus trimmed answer, with the service's remaining stored and shown |

## Left out

- The three clock reads of a request are one `now`. The reset time, the
  purge cut-off and the commit time are therefore equal, where in the
  handlers they could differ by the time generation takes.
- Concurrency is not modelled. Two simultaneous requests of one pair can both
  pass the gate.
- PHP integer width is not modelled. Counts and times are unbounded
  integers, which matches PHP's 64-bit integers for all realistic values.
- Parameter cleaning is not modelled. The message is a `PARAM_TEXT`
  parameter, but the two handlers treat it differently.
  - The legacy script cleans it (chat_service.php:12).
  - The web service rejects, in parameter validation, a message that
    cleaning would change (send_message.php:37).

  The history is taken raw (`PARAM_RAW`, send_message.php:38,
  chat_service.php:13).
- ExternalService.Render: the response's `error` field is declared as
  `PARAM_TEXT` (send_message.php:228), and the framework validates return
  values against that declaration. A generator or exception message with
  tag-like text therefore reaches the page as an invalid-response failure of
  the call. It does not arrive as the `{success: false, error}` record
  modelled here.
- Decoding the history is not modelled. `json_decode` is represented by a
  history that is already decoded: `Unusable` stands for empty, invalid or
  scalar JSON, and `Entries` for a list or object.
- Session: the message is assumed to pass `PARAM_TEXT` unchanged. For a
  question with tag-like text, the web service rejects the parameter and the
  legacy script strips the tags. The message the handler then uses is not
  the page's question, and Session.PromptRepeatsQuestion does not hold for
  it.
- Session: the service is composed with the page script given its strings
  (`OnDone`, `ClearChat`). The page as the block loads it differs from that
  only through the behaviour in the first row of "## Findings".
- A decoded element that is a plain string is not modelled. Accessing its
  role fails in PHP outside the `try` block, so the request errors.
- The localised texts of `get_string` are kept as their parameters in
  `ErrorText` and `RateLimited`, not as strings.
- The generator's error message is a string. A `null` message is modelled
  as `""`, which is falsy in the same way.
- Relay.Process: parameter validation, the `MUST_EXIST` lookup of the
  block, `require_login` and context validation are left out. Each of them
  throws on failure, before the purge.
  - In the web service, parameter validation and the lookup come first
    (send_message.php:54-61). Login and context validation run after the
    block-not-found answer (send_message.php:74-76).
  - The legacy script checks the login before anything else
    (chat_service.php:9) and validates no context.
- The AI manager and the generate-text action are an oracle, the `gen`
  parameter. Only their success, content and error message matter here.
- ChatClient: DOM updates, HTML escaping, scrolling, focus and the
  "Thinking..." element are left out. Only the state they reflect is kept.
  `Clear` stands for a clear the user has confirmed.
- ChatClient.UpdateRemaining, ChatClient.OnDone and ChatClient.ClearChat
  model the script as if `init` received its strings. The page as the block
  loads it is modelled by ChatClient.OnDoneWithoutStrings and the `Deployed`
  variant of ChatClient.Step. Under that variant a clear does nothing at all.
- ChatClient.OnDoneWithoutStrings: a thrown handler is modelled as stopping
  at the throw. Whatever the AJAX library does with the exception is not
  part of this model.
- ChatClient.Run: events that the page cannot deliver (typing into a
  disabled input, a response with no call in flight) are modelled as having
  no effect.
- The block's rendering, settings form, library callbacks, privacy
  provider, language strings, service registration, configuration editing
  and version file are not part of this model.

## Findings

| source | as written | input that shows it | evidently intended | confidence | as-written member | corrected member |
|---|---|---|---|---|---|---|
| moochat/block_moochat.php:178 | the block calls the page script's `init` with the instance id only, so `strings` is undefined there; every banner update with a count of 0 or more throws (chat.js:36), and so does the clear button's handler (chat.js:180) | a rate-limited block: the page asks "Why?" and receives `{success: true, reply: "Because.", remaining: 9}`; the count is stored, the banner update throws before the input is unlocked, and the input stays locked for good | `init` receives the strings it reads (`questionsremaining`, `chatcleared`, `confirmclear`), so an answer with questions left unlocks the input | not executed | ChatClient.MeteredAnswerLocksPageExample | ChatClient.OnDone |
| moochat/amd/src/chat.js:88-128 | the rate-limit branch locks the input and shows 0 but does not store 0 as the remaining count, so the final check that re-enables the input unless the stored count is 0 unlocks it again | with the strings passed (the first row's correction), a freshly loaded page (stored count -1) asks "Why?" and receives `{success: false, remaining: 0}`: the banner shows 0 questions remaining and the input is open | a denial leaves the input disabled, as the comment on the final check states | not executed | ChatClient.DenialReopensInputExample | ChatClient.OnDoneIntended |

=== FILE: chat_client.dfy ===
/** The chat page's script as a state machine. The page's elements become
    fields: the transcript, the answered-question counter, the stored
    remaining-questions value, whether the input and send button are
    disabled, the remaining-questions banner, the input text and the
    "Thinking..." placeholder. */
module ChatClient {
  import opened Wrappers
  import opened Text
  import opened Relay

  datatype Role = User | Assistant

  datatype Turn = Turn(role: Role, content: string)

  /** The remaining-questions banner: empty as created, hidden, or showing a
      number. */
  datatype Display = Blank | Hidden | Shown(count: int)

  /** A service response as the page receives it; `remaining` may be absent. */
  datatype Reply = Reply(success: bool, error: ErrorText, reply: string, remaining: Option<int>)

  /** What the user or the network does: type, press send (or Enter), a
      response arrives, the call fails, or a confirmed clear. */
  datatype Event = Edit(text: string) | Send | Done(response: Reply) | Fail | Clear

  /** What the page does outside itself: a service call or an alert box. */
  datatype Effect = Quiet | Request(message: string, history: seq<Turn>) | Alert(title: string, body: ErrorText)

  datatype Chat = Chat(
    history: seq<Turn>,
    messageCount: int,
    remainingQuestions: int,
    inputDisabled: bool,
    display: Display,
    draft: string,
    thinking: bool)

  /** The page as loaded: no history, no limit known (-1). */
  const INITIAL: Chat := Chat([], 0, -1, false, Blank, "", false)

  const RATE_LIMIT_TITLE: string := "Rate Limit Reached"
  const ERROR_TITLE: string := "Error"
  const CONNECT_FAILURE: string := "Failed to connect to AI service"

  /** The banner for a remaining count: shown with the number exactly when it
      is not negative. */
  function UpdateRemaining(n: int): (d: Display)
    ensures d.Shown? <==> n >= 0
    ensures d.Shown? ==> d.count == n
    ensures d != Blank
  {
    if n >= 0 then Shown(n) else Hidden
  }

  /** Pressing send. Input that is blank after trimming is ignored entirely;
      otherwise the trimmed question joins the history before the call, so the
      history sent already ends with it, and the input is locked. */
  function SendMessage(s: Chat): (r: (Chat, Effect))
    ensures AllIn(s.draft, JS_TRIM_CHARS) ==> r == (s, Quiet)
    ensures !AllIn(s.draft, JS_TRIM_CHARS) ==>
      && r.1.Request?
      && r.1.message == JsTrim(s.draft) && r.1.message != [] && Trimmed(r.1.message, JS_TRIM_CHARS)
      && r.1.history == s.history + [Turn(User, r.1.message)]
      && r.0 == s.(history := r.1.history, inputDisabled := true, draft := "", thinking := true)
  {
    TrimEmptyIffBlank(s.draft, JS_TRIM_CHARS);
    TrimIsTrimmed(s.draft, JS_TRIM_CHARS);
    var message := JsTrim(s.draft);
    if message == "" then (s, Quiet)
    else
      var h := s.history + [Turn(User, message)];
      (s.(history := h, inputDisabled := true, draft := "", thinking := true), Request(message, h))
  }

  /** The end of the response handler: the input is unlocked unless the
      stored remaining count is 0. */
  function Reopen(s: Chat): Chat
  {
    if s.remainingQuestions != 0 then s.(inputDisabled := false) else s
  }

  /** A response arrives. A failure with 0 remaining is a rate-limit denial:
      it alerts, shows 0 and locks the input, but does not store 0. Another
      failure only alerts. A success with a non-empty reply appends one
      answer, counts it and stores and shows the remaining count. At the end
      the input is unlocked unless the stored count is 0. */
  function OnDone(s: Chat, resp: Reply): (r: (Chat, Effect))
    ensures !r.0.thinking
    ensures r.0.remainingQuestions != 0 ==> !r.0.inputDisabled
    ensures s.inputDisabled && r.0.remainingQuestions == 0 ==> r.0.inputDisabled
    ensures resp.success && resp.reply != "" ==>
      && r.0.history == s.history + [Turn(Assistant, resp.reply)]
      && r.0.messageCount == s.messageCount + 1
      && r.0.remainingQuestions == resp.remaining.GetOr(s.remainingQuestions)
    ensures resp.success && resp.reply != "" && resp.remaining.Some? ==>
      && r.0.display == UpdateRemaining(resp.remaining.value)
      && (resp.remaining.value == 0 ==> r.0.inputDisabled)
    ensures !(resp.success && resp.reply != "") ==>
      r.0.history == s.history && r.0.messageCount == s.messageCount
      && r.0.remainingQuestions == s.remainingQuestions
    ensures r.1.Alert? <==> !resp.success
    ensures !resp.success ==>
      && r.1.body == resp.error
      && (r.1.title == RATE_LIMIT_TITLE <==> resp.remaining == Some(0))
    ensures !resp.success && resp.remaining == Some(0) ==> r.0.display == Shown(0)
    ensures r.0.draft == s.draft
  {
    var s1 := s.(thinking := false);
    var (s2, effect) :=
      if !resp.success then
        if resp.remaining == Some(0) then
          (s1.(inputDisabled := true, display := UpdateRemaining(0)), Alert(RATE_LIMIT_TITLE, resp.error))
        else
          (s1, Alert(ERROR_TITLE, resp.error))
      else if resp.reply != "" then
        var s3 := s1.(history := s1.history + [Turn(Assistant, resp.reply)],
                      messageCount := s1.messageCount + 1);
        match resp.remaining
        case None => (s3, Quiet)
        case Some(n) =>
          (s3.(remainingQuestions := n, display := UpdateRemaining(n),
               inputDisabled := if n == 0 then true else s3.inputDisabled), Quiet)
      else
        (s1, Quiet);
    (Reopen(s2), effect)
  }

  /** The call itself fails: alert and unlock, keeping the question that was
      already added to the history. */
  function OnFail(s: Chat): (r: (Chat, Effect))
    ensures !r.0.thinking && !r.0.inputDisabled
    ensures r.0.history == s.history && r.0.messageCount == s.messageCount
    ensures r.0.remainingQuestions == s.remainingQuestions
    ensures r.1 == Alert(ERROR_TITLE, Plain(CONNECT_FAILURE))
  {
    (s.(thinking := false, inputDisabled := false), Alert(ERROR_TITLE, Plain(CONNECT_FAILURE)))
  }

  /** A confirmed clear: forgets the conversation and the answered count but
      keeps the remaining-questions value, the banner and the lock. */
  function ClearChat(s: Chat): (r: Chat)
    ensures r.history == [] && r.messageCount == 0 && r.draft == ""
    ensures r.remainingQuestions == s.remainingQuestions && r.display == s.display
    ensures r.inputDisabled == s.inputDisabled && r.thinking == s.thinking
  {
    s.(history := [], messageCount := 0, draft := "")
  }

  /** The denial branch as evidently intended: it also stores 0 as the
      remaining count, so the final check leaves the input locked. */
  function OnDoneIntended(s: Chat, resp: Reply): (r: (Chat, Effect))
    ensures !resp.success && resp.remaining == Some(0) ==>
      r.0.inputDisabled && r.0.remainingQuestions == 0 && r.0.display == Shown(0)
    ensures !(!resp.success && resp.remaining == Some(0)) ==> r == OnDone(s, resp)
  {
    if !resp.success && resp.remaining == Some(0) then OnDone(s.(remainingQuestions := 0), resp)
    else OnDone(s, resp)
  }

  /** A response whose handling calls the banner update with a count of 0
      or more: a rate-limit denial, or an answer that reports a count. */
  predicate BannerShowsCount(resp: Reply)
  {
    || (!resp.success && resp.remaining == Some(0))
    || (resp.success && resp.reply != "" && resp.remaining.Some? && resp.remaining.value >= 0)
  }

  /** A response arrives on the page as the block loads it. The block calls
      `init` with the instance id only, so `strings` is undefined and the
      banner update throws whenever it would show a count; the rest of the
      handler does not run. A denial then leaves the input locked and the
      banner as it was; an answer that reports a count stores it and leaves
      the input locked. Every other response is handled as in `OnDone`. */
  function OnDoneWithoutStrings(s: Chat, resp: Reply): (r: (Chat, Effect))
    ensures !r.0.thinking && r.1 == OnDone(s, resp).1
    ensures resp.success && resp.reply != "" ==>
      && r.0.history == s.history + [Turn(Assistant, resp.reply)]
      && r.0.messageCount == s.messageCount + 1
      && r.0.remainingQuestions == resp.remaining.GetOr(s.remainingQuestions)
    ensures !(resp.success && resp.reply != "") ==>
      r.0.history == s.history && r.0.messageCount == s.messageCount
      && r.0.remainingQuestions == s.remainingQuestions
    ensures BannerShowsCount(resp) ==>
      r.0.display == s.display && (s.inputDisabled || !resp.success ==> r.0.inputDisabled)
    ensures !BannerShowsCount(resp) ==> r == OnDone(s, resp)
  {
    var s1 := s.(thinking := false);
    if !resp.success then
      if resp.remaining == Some(0) then
        (s1.(inputDisabled := true), Alert(RATE_LIMIT_TITLE, resp.error))
      else
        (Reopen(s1), Alert(ERROR_TITLE, resp.error))
    else if resp.reply != "" then
      var s3 := s1.(history := s1.history + [Turn(Assistant, resp.reply)],
                    messageCount := s1.messageCount + 1);
      match resp.remaining
      case None => (Reopen(s3), Quiet)
      case Some(n) =>
        if n >= 0 then (s3.(remainingQuestions := n), Quiet)
        else (Reopen(s3.(remainingQuestions := n, display := Hidden)), Quiet)
    else
      (Reopen(s1), Quiet)
  }

  /** Which page runs: the script as the block loads it (without its
      strings), the script given its strings as written, or the script given
      its strings with the denial branch as evidently intended. */
  datatype Variant = Deployed | AsWritten | Intended

  /** The handler run for an event. On the page as the block loads it, the
      clear button's handler throws before it asks for confirmation, so a
      clear does nothing. */
  function Step(v: Variant, s: Chat, e: Event): (r: (Chat, Effect))
    ensures r.1.Request? <==> e.Send? && !AllIn(s.draft, JS_TRIM_CHARS)
    ensures r.1.Alert? <==> e.Fail? || (e.Done? && !e.response.success)
    ensures !e.Send? && !e.Done? ==> r.0.remainingQuestions == s.remainingQuestions
    ensures e.Clear? ==> (r.0.history == [] <==> !v.Deployed? || s.history == [])
  {
    match e
    case Edit(text) => (s.(draft := text), Quiet)
    case Send => SendMessage(s)
    case Done(resp) =>
      (match v
       case Deployed => OnDoneWithoutStrings(s, resp)
       case AsWritten => OnDone(s, resp)
       case Intended => OnDoneIntended(s, resp))
    case Fail => OnFail(s)
    case Clear => if v.Deployed? then (s, Quiet) else (ClearChat(s), Quiet)
  }

  /** Events the page can deliver: a disabled input takes no typing and a
      disabled button no clicks; responses only arrive for a call in flight. */
  predicate Deliverable(s: Chat, e: Event)
  {
    match e
    case Edit(_) => !s.inputDisabled
    case Send => !s.inputDisabled
    case Done(_) => s.thinking
    case Fail => s.thinking
    case Clear => true
  }

  /** The page after a sequence of events; undeliverable ones have no effect. */
  function Run(v: Variant, s: Chat, events: seq<Event>): Chat
    decreases |events|
  {
    if events == [] then s
    else
      var next := if Deliverable(s, events[0]) then Step(v, s, events[0]).0 else s;
      Run(v, next, events[1..])
  }

  /** The number of answers in a history. */
  function Answers(h: seq<Turn>): nat
  {
    if h == [] then 0 else (if h[0].role == Assistant then 1 else 0) + Answers(h[1..])
  }

  lemma {:induction false} AnswersAppend(h: seq<Turn>, t: Turn)
    ensures Answers(h + [t]) == Answers(h) + (if t.role == Assistant then 1 else 0)
  {
    if h == [] {
      assert [] + [t] == [t];
    } else {
      assert (h + [t])[1..] == h[1..] + [t];
      AnswersAppend(h[1..], t);
    }
  }

  /** What holds of every page the user can reach once the script has its
      strings: a call in flight keeps the input locked; otherwise the input
      is locked exactly when the stored remaining count is 0; and the
      answered counter counts the answers in the history. */
  predicate Inv(s: Chat)
  {
    && (s.thinking ==> s.inputDisabled && s.remainingQuestions != 0)
    && (!s.thinking ==> (s.inputDisabled <==> s.remainingQuestions == 0))
    && s.messageCount == Answers(s.history)
  }

  /** Every handler of the script given its strings, as written or with the
      intended denial branch, keeps the invariant. */
  lemma StepKeepsInv(v: Variant, s: Chat, e: Event)
    requires !v.Deployed?
    requires Inv(s) && Deliverable(s, e)
    ensures Inv(Step(v, s, e).0)
  {
    match e
    case Send =>
      AnswersAppend(s.history, Turn(User, JsTrim(s.draft)));
    case Done(resp) =>
      if resp.success && resp.reply != "" {
        AnswersAppend(s.history, Turn(Assistant, resp.reply));
      }
    case _ =>
  }

  /** Every page reachable from one that satisfies the invariant satisfies
      it. */
  lemma {:induction false} RunKeepsInv(v: Variant, s: Chat, events: seq<Event>)
    requires !v.Deployed?
    requires Inv(s)
    ensures Inv(Run(v, s, events))
    decreases |events|
  {
    if events != [] {
      var next := if Deliverable(s, events[0]) then Step(v, s, events[0]).0 else s;
      if Deliverable(s, events[0]) {
        StepKeepsInv(v, s, events[0]);
      }
      RunKeepsInv(v, next, events[1..]);
    }
  }

  lemma InitialInv()
    ensures Inv(INITIAL)
  {
  }

  /** Once a reply has stored 0 remaining and no call is in flight, the page
      stays locked with 0 remaining whatever happens next; clearing the chat
      does not help, only reloading the page. */
  lemma {:induction false} ZeroRemainingIsFinal(v: Variant, s: Chat, events: seq<Event>)
    requires !v.Deployed?
    requires Inv(s) && !s.thinking && s.remainingQuestions == 0
    ensures var r := Run(v, s, events);
      r.remainingQuestions == 0 && r.inputDisabled && !r.thinking && r.display == s.display
    decreases |events|
  {
    if events != [] {
      var next := if Deliverable(s, events[0]) then Step(v, s, events[0]).0 else s;
      if Deliverable(s, events[0]) {
        StepKeepsInv(v, s, events[0]);
      }
      ZeroRemainingIsFinal(v, next, events[1..]);
    }
  }

  /** On the page as the block loads it, a locked page with no call in flight
      never changes again: it takes no typing and no sends, and clearing does
      nothing. */
  lemma {:induction false} DeployedLockIsFinal(s: Chat, events: seq<Event>)
    requires !s.thinking && s.inputDisabled
    ensures Run(Deployed, s, events) == s
    decreases |events|
  {
    if events != [] {
      assert !Deliverable(s, events[0]) || events[0].Clear?;
      DeployedLockIsFinal(s, events[1..]);
    }
  }

  /** On the page as the block loads it, the first answer that reports a
      count (every answer from a rate-limited block) leaves the input locked
      for good, whatever count remains; given its strings, the script would
      unlock it. */
  lemma MeteredAnswerLocksPage(s: Chat, resp: Reply, events: seq<Event>)
    requires Inv(s) && s.thinking
    requires resp.success && resp.reply != "" && resp.remaining.Some? && resp.remaining.value > 0
    ensures var r := Run(Deployed, s, [Done(resp)] + events);
      && r == OnDoneWithoutStrings(s, resp).0
      && r.inputDisabled && !r.thinking && r.remainingQuestions == resp.remaining.value
      && r.history == s.history + [Turn(Assistant, resp.reply)]
      && !Run(AsWritten, s, [Done(resp)]).inputDisabled
  {
    var r := OnDoneWithoutStrings(s, resp).0;
    assert ([Done(resp)] + events)[1..] == events;
    DeployedLockIsFinal(r, events);
    assert [Done(resp)][1..] == [];
  }

  /** The page as the block loads it, after one question answered with 9
      questions left: the input is locked and stays locked. */
  lemma MeteredAnswerLocksPageExample(events: seq<Event>)
    ensures var answer := Reply(true, NoError, "Because.", Some(9));
      var asked := SendMessage(INITIAL.(draft := "Why?")).0;
      var r := Run(Deployed, asked, [Done(answer)] + events);
      r.inputDisabled && r.remainingQuestions == 9
  {
    var answer := Reply(true, NoError, "Because.", Some(9));
    var typed := INITIAL.(draft := "Why?");
    ExampleQuestionSent();
    StepKeepsInv(AsWritten, typed, Send);
    MeteredAnswerLocksPage(SendMessage(typed).0, answer, events);
  }

  /** Given its strings, as written, a rate-limit denial shows 0 and locks
      the input, and then the final check unlocks it again because 0 was
      never stored. */
  lemma DenialReopensInput(s: Chat, resp: Reply)
    requires s.remainingQuestions != 0
    requires !resp.success && resp.remaining == Some(0)
    ensures var r := OnDone(s, resp).0;
      r.display == Shown(0) && !r.inputDisabled && r.remainingQuestions == s.remainingQuestions
  {
  }

  /** The script given its strings, freshly loaded, after one question
      answered by a rate-limit denial: the banner says 0 questions remain,
      yet the input is open. */
  lemma DenialReopensInputExample()
    ensures var denial := Reply(false, RateLimitReached(10, "day"), "", Some(0));
      var asked := SendMessage(INITIAL.(draft := "Why?")).0;
      var r := OnDone(asked, denial).0;
      asked.inputDisabled && r.display == Shown(0) && !r.inputDisabled
  {
    var denial := Reply(false, RateLimitReached(10, "day"), "", Some(0));
    ExampleQuestionSent();
    var asked := SendMessage(INITIAL.(draft := "Why?")).0;
    DenialReopensInput(asked, denial);
  }

  lemma ExampleQuestionSent()
    ensures var asked := SendMessage(INITIAL.(draft := "Why?")).0;
      asked.remainingQuestions == -1 && asked.inputDisabled && asked.thinking
  {
    var q := "Why?";
    assert q[0] == 'W' && q[|q| - 1] == '?';
    TrimFixesTrimmed(q, JS_TRIM_CHARS);
    TrimEmptyIffBlank(q, JS_TRIM_CHARS);
  }

  /** With the intended denial branch, a denial received while a question is
      in flight leaves a page that stays locked with 0 remaining from then
      on. */
  lemma IntendedDenialLocks(s: Chat, resp: Reply, events: seq<Event>)
    requires Inv(s) && s.thinking
    requires !resp.success && resp.remaining == Some(0)
    ensures var r := Run(Intended, s, [Done(resp)] + events);
      r.remainingQuestions == 0 && r.inputDisabled && r.display == Shown(0)
  {
    var next := OnDoneIntended(s, resp).0;
    StepKeepsInv(Intended, s, Done(resp));
    assert ([Done(resp)] + events)[1..] == events;
    ZeroRemainingIsFinal(Intended, next, events);
  }
}

=== FILE: config.dfy ===
/** A chat block's settings as the request handlers read them: every field may
    be unset, and each reader applies its own default. */
module BlockConfig {
  import opened Wrappers

  /** Defaults applied when a setting is unset. */
  const DEFAULT_PROMPT: string := "You are a helpful educational assistant."
  const DEFAULT_MAX_MESSAGES: int := 20
  const DEFAULT_PERIOD: string := "day"
  const DEFAULT_COUNT: int := 10

  const HOUR_SECONDS: int := 3600
  const DAY_SECONDS: int := 86400

  /** The stored settings, after `intval` where the handlers apply it. */
  datatype Config = Config(
    systemprompt: Option<string>,
    maxmessages: Option<int>,
    ratelimitEnable: Option<string>,
    ratelimitPeriod: Option<string>,
    ratelimitCount: Option<int>)

  /** A block whose settings were never saved. */
  const UNCONFIGURED: Config := Config(None, None, None, None, None)

  /** The rate limit in force: the period's name and length and the number of
      questions allowed per period. */
  datatype Limit = Limit(period: string, periodSeconds: int, count: int)

  /** PHP truthiness of a string: only "" and "0" are false. */
  predicate PhpTruthy(s: string)
  {
    s != "" && s != "0"
  }

  function SystemPrompt(c: Config): string
  {
    c.systemprompt.GetOr(DEFAULT_PROMPT)
  }

  /** Maximum questions per chat session; 0 or less means unlimited. */
  function MaxMessages(c: Config): int
  {
    c.maxmessages.GetOr(DEFAULT_MAX_MESSAGES)
  }

  predicate RateLimitOn(c: Config)
  {
    c.ratelimitEnable.Some? && PhpTruthy(c.ratelimitEnable.value)
  }

  function PeriodName(c: Config): string
  {
    c.ratelimitPeriod.GetOr(DEFAULT_PERIOD)
  }

  /** Seconds in a rate-limit period: an hour only for the exact name "hour",
      a day for every other name. */
  function PeriodSeconds(name: string): (r: int)
    ensures r == HOUR_SECONDS <==> name == "hour"
    ensures r == DAY_SECONDS <==> name != "hour"
  {
    if name == "hour" then HOUR_SECONDS else DAY_SECONDS
  }

  function Count(c: Config): int
  {
    c.ratelimitCount.GetOr(DEFAULT_COUNT)
  }

  /** The rate limit of a block, present exactly when rate limiting is on. */
  function Limits(c: Config): (r: Option<Limit>)
    ensures r.Some? <==> RateLimitOn(c)
    ensures r.Some? ==> r.value.count == Count(c) && r.value.period == PeriodName(c)
    ensures r.Some? ==> r.value.periodSeconds == PeriodSeconds(PeriodName(c))
  {
    if RateLimitOn(c) then Some(Limit(PeriodName(c), PeriodSeconds(PeriodName(c)), Count(c)))
    else None
  }

  /** Every setting is read as its stored value when set and as the
      handler's literal default when unset; the rate limit is off exactly for
      an unset, empty or "0" enable flag, and its period is an hour only for
      the stored name "hour". */
  lemma SettingsOrDefaults(c: Config)
    ensures SystemPrompt(c)
         == (if c.systemprompt.Some? then c.systemprompt.value else "You are a helpful educational assistant.")
    ensures MaxMessages(c) == (if c.maxmessages.Some? then c.maxmessages.value else 20)
    ensures Limits(c).None?
        <==> c.ratelimitEnable.None? || c.ratelimitEnable.value == "" || c.ratelimitEnable.value == "0"
    ensures Limits(c).Some? ==>
      && Limits(c).value.count == (if c.ratelimitCount.Some? then c.ratelimitCount.value else 10)
      && Limits(c).value.period == (if c.ratelimitPeriod.Some? then c.ratelimitPeriod.value else "day")
      && Limits(c).value.periodSeconds == (if c.ratelimitPeriod == Some("hour") then 3600 else 86400)
  {
  }

  /** An unconfigured block: default prompt, 20 questions per session, no
      rate limit; turning the limit on alone gives 10 questions per day. */
  lemma UnconfiguredDefaults()
    ensures SystemPrompt(UNCONFIGURED) == "You are a helpful educational assistant."
    ensures MaxMessages(UNCONFIGURED) == 20
    ensures Limits(UNCONFIGURED) == None
    ensures Limits(UNCONFIGURED.(ratelimitEnable := Some("1"))) == Some(Limit("day", 86400, 10))
  {
  }
}

=== FILE: external_service.dfy ===
/** The web-service entry point: every outcome becomes the same four-field
    record `{success, error, reply, remaining}`, where -1 remaining means
    "no limit known" and 0 means the quota is used up. */
module ExternalService {
  import opened Wrappers
  import opened BlockConfig
  import opened Usage
  import opened Prompt
  import opened Relay
  import RelayProperties

  datatype Response = Response(success: bool, error: ErrorText, reply: string, remaining: int)

  /** The response, the usage table afterwards and the prompt generated from. */
  datatype Served = Served(response: Response, table: Table, prompt: Option<string>)

  function Render(o: Outcome): (r: Response)
    ensures r.success <==> o.Replied?
    ensures r.error == ErrorOf(o)
    ensures o.Replied? ==> r.reply == o.reply && r.remaining == o.remaining
    ensures !o.Replied? ==> r.reply == ""
    ensures !o.Replied? ==> (r.remaining == 0 <==> o.RateLimited?) && (r.remaining == -1 <==> !o.RateLimited?)
  {
    match o
    case BlockNotFound => Response(false, BlockMissing, "", -1)
    case RateLimited(limit, period) => Response(false, RateLimitReached(limit, period), "", 0)
    case SessionCapped => Response(false, MaxMessagesReached, "", -1)
    case Replied(reply, remaining) => Response(true, NoError, reply, remaining)
    case GenerationFailed(e) => Response(false, Plain(e), "", -1)
  }

  /** One call of the service by `user` on block `instance`. */
  function Execute(t: Table, block: Option<Config>, instance: int, user: int, message: string,
                   history: HistoryInput, now: int, gen: Generation): (r: Served)
    ensures r.response.success ==> r.prompt.Some?
    ensures r.response.remaining == 0 && !r.response.success ==>
              block.Some? && RateLimitOn(block.value) && r.prompt.None?
  {
    var s := Process(t, block, instance, user, message, history, now, gen);
    Served(Render(s.outcome), s.table, s.prompt)
  }

  /** With rate limiting off, every response reports -1 remaining, whatever
      happens and whatever the usage table holds. */
  lemma UnlimitedAlwaysMinusOne(t: Table, cfg: Config, instance: int, user: int, message: string,
                                history: HistoryInput, now: int, gen: Generation)
    requires !RateLimitOn(cfg)
    ensures Execute(t, Some(cfg), instance, user, message, history, now, gen).response.remaining == -1
  {
  }

  /** With rate limiting on, a successful response reports the limit minus
      the pair's stored count. */
  lemma RemainingMatchesStore(t: Table, cfg: Config, instance: int, user: int, message: string,
                              history: HistoryInput, now: int, gen: Generation)
    requires RateLimitOn(cfg)
    ensures var r := Execute(t, Some(cfg), instance, user, message, history, now, gen);
      r.response.success ==>
        Key(instance, user) in r.table
        && r.response.remaining == Count(cfg) - r.table[Key(instance, user)].messagecount
  {
    RelayProperties.SuccessCountsOne(t, cfg, instance, user, message, history, now, gen);
  }

  /** For any request the rate gate admits, even with rate limiting on and
      questions left, a failure (a session-cap rejection or a failed
      generation) reports -1 remaining. */
  lemma FailuresReportMinusOne(t: Table, cfg: Config, instance: int, user: int, message: string,
                               history: HistoryInput, now: int, gen: Generation)
    requires !RelayProperties.Exhausted(t, cfg, Key(instance, user), now)
    ensures var r := Execute(t, Some(cfg), instance, user, message, history, now, gen);
      && (!r.response.success ==> r.response.remaining == -1)
      && (r.response.error == MaxMessagesReached <==> Capped(MaxMessages(cfg), |Parse(history)|))
  {
    RelayProperties.OthersAdmitted(t, cfg, instance, user, message, history, now, gen);
  }
}

=== FILE: legacy_service.dfy ===
/** The legacy AJAX script: the same request pipeline, answered with a JSON
    object whose fields are present or absent depending on the outcome. */
module LegacyService {
  import opened Wrappers
  import opened BlockConfig
  import opened Usage
  import opened Prompt
  import opened Relay
  import ExternalService

  /** The JSON object written back; `None` marks an absent field. */
  datatype JsonReply = JsonReply(
    success: Option<bool>,
    error: Option<ErrorText>,
    reply: Option<string>,
    remaining: Option<int>)

  datatype Served = Served(json: JsonReply, table: Table, prompt: Option<string>)

  /** Only a reply carries `success`; a rate-limit denial is the only error
      that carries `remaining`. */
  function Render(o: Outcome): (j: JsonReply)
    ensures j.success.Some? <==> o.Replied?
    ensures j.success.Some? ==> j.success.value
    ensures j.error.Some? <==> !o.Replied?
    ensures j.error.Some? ==> j.error.value == ErrorOf(o)
    ensures j.reply.Some? <==> o.Replied?
    ensures j.remaining.Some? <==> o.Replied? || o.RateLimited?
    ensures o.RateLimited? ==> j.remaining == Some(0)
  {
    match o
    case Replied(reply, remaining) => JsonReply(Some(true), None, Some(reply), Some(remaining))
    case RateLimited(limit, period) => JsonReply(None, Some(RateLimitReached(limit, period)), None, Some(0))
    case _ => JsonReply(None, Some(ErrorOf(o)), None, None)
  }

  /** One request to the script by `user` on block `instance`. */
  function Serve(t: Table, block: Option<Config>, instance: int, user: int, message: string,
                 history: HistoryInput, now: int, gen: Generation): (r: Served)
    ensures r.json.success.Some? ==> r.prompt.Some?
  {
    var s := Process(t, block, instance, user, message, history, now, gen);
    Served(Render(s.outcome), s.table, s.prompt)
  }

  /** The two entry points differ only in the shape of the answer: the same
      usage table results, the same prompt is generated from, and every field
      the script sends carries the web service's value. */
  lemma AgreesWithExternal(t: Table, block: Option<Config>, instance: int, user: int, message: string,
                           history: HistoryInput, now: int, gen: Generation)
    ensures var l := Serve(t, block, instance, user, message, history, now, gen);
      var e := ExternalService.Execute(t, block, instance, user, message, history, now, gen);
      && l.table == e.table && l.prompt == e.prompt
      && (l.json.success.Some? <==> e.response.success)
      && (l.json.error.Some? <==> !e.response.success)
      && (l.json.error.Some? ==> l.json.error.value == e.response.error)
      && (l.json.reply.Some? ==> l.json.reply.value == e.response.reply)
      && (l.json.remaining.Some? ==> l.json.remaining.value == e.response.remaining)
  {
  }
}

=== FILE: prompt.dfy ===
/** The conversation history a request carries and the prompt text sent to
    the text generator. */
module Prompt {
  import opened Text

  /** One element of the decoded history list: an entry with a role and a
      content, or an element with no usable role (a number, an object without
      a role, a role that is not a string). */
  datatype Entry = Message(role: string, content: string) | Malformed

  /** The history parameter after JSON decoding: `Unusable` stands for an
      empty parameter, invalid JSON and JSON that is not a list or object. */
  datatype HistoryInput = Unusable | Entries(items: seq<Entry>)

  /** The history the handler works with: anything unusable becomes empty. */
  function Parse(h: HistoryInput): seq<Entry>
  {
    match h
    case Unusable => []
    case Entries(items) => items
  }

  /** The session cap: with a positive maximum of questions, a history of at
      least twice that many entries (questions and answers) is full. */
  predicate Capped(maxmessages: int, historyLength: int)
  {
    maxmessages > 0 && historyLength >= maxmessages * 2
  }

  /** The prompt line for one history entry; roles other than exactly
      "user" and "assistant" contribute nothing. */
  function Line(e: Entry): string
  {
    match e
    case Message(role, content) =>
      if role == "user" then "User: " + content + "\n"
      else if role == "assistant" then "Assistant: " + content + "\n"
      else ""
    case Malformed => ""
  }

  predicate Spoken(e: Entry)
  {
    e.Message? && (e.role == "user" || e.role == "assistant")
  }

  /** The history part of the prompt, entry by entry in order. */
  function Transcript(h: seq<Entry>): string
  {
    Join(h, Line)
  }

  /** The closing part of the prompt: the new question and the cue for the
      answer. */
  function Cue(message: string): string
  {
    "User: " + message + "\nAssistant:"
  }

  /** The full prompt: system instructions, a blank line, the transcript, the
      new question and the cue. It starts with the system instructions and a
      blank line and ends with the question and the answer cue. */
  function Build(systemprompt: string, h: seq<Entry>, message: string): (p: string)
    ensures |p| == |systemprompt| + 2 + |Transcript(h)| + |message| + 17
    ensures p[..|systemprompt| + 2] == systemprompt + "\n\n"
    ensures p[|p| - |message| - 11..] == message + "\nAssistant:"
    ensures p[|p| - |message| - 17..|p| - |message| - 11] == "User: "
    ensures p[|systemprompt| + 2..|p| - |message| - 17] == Transcript(h)
  {
    var head := systemprompt + "\n\n";
    var tail := Cue(message);
    var p := head + Transcript(h) + tail;
    assert p[..|head|] == head;
    assert p[|p| - |tail|..] == tail;
    p
  }

  /** Extending the history by one entry extends the transcript by exactly
      that entry's line. */
  lemma TranscriptAppend(h: seq<Entry>, e: Entry)
    ensures Transcript(h + [e]) == Transcript(h) + Line(e)
  {
    JoinAppend(h, e, Line);
  }

  /** The entries that reach the prompt. */
  function SpokenOnly(h: seq<Entry>): (r: seq<Entry>)
    ensures |r| <= |h|
    ensures forall i :: 0 <= i < |r| ==> Spoken(r[i])
    ensures forall e :: e in r <==> e in h && Spoken(e)
  {
    if h == [] then []
    else if Spoken(h[0]) then [h[0]] + SpokenOnly(h[1..])
    else SpokenOnly(h[1..])
  }

  /** Entries with other roles, and malformed ones, leave no trace in the
      transcript (though they still count towards the session cap). */
  lemma {:induction false} TranscriptIgnoresUnspoken(h: seq<Entry>)
    ensures Transcript(SpokenOnly(h)) == Transcript(h)
  {
    if h != [] {
      TranscriptIgnoresUnspoken(h[1..]);
      if Spoken(h[0]) {
        JoinConcat([h[0]], SpokenOnly(h[1..]), Line);
        assert [h[0]][1..] == [];
      } else {
        assert Line(h[0]) == "";
      }
    }
  }

  /** The worked example: system prompt "S", a question "A" answered by "B",
      and the new question "C". */
  lemma BuildExample()
    ensures Build("S", [Message("user", "A"), Message("assistant", "B")], "C")
         == "S\n\nUser: A\nAssistant: B\nUser: C\nAssistant:"
  {
    ExampleTranscript();
    ExampleCue();
    ExampleJoin();
  }

  /** The transcript of the worked example's two-entry history. */
  lemma ExampleTranscript()
    ensures Transcript([Message("user", "A"), Message("assistant", "B")]) == "User: A\nAssistant: B\n"
  {
    var a := Message("user", "A");
    var b := Message("assistant", "B");
    assert [a, b] == [] + [a] + [b];
    JoinAppend([], a, Line);
    JoinAppend([a], b, Line);
    assert Line(a) + Line(b) == "User: A\nAssistant: B\n";
  }

  /** The worked example's cue; with ExampleTranscript and ExampleJoin it
      splits BuildExample into steps the solver closes on every seed. */
  lemma ExampleCue()
    ensures Cue("C") == "User: C\nAssistant:"
  {
  }

  /** The worked example's three parts concatenate to the expected prompt. */
  lemma ExampleJoin()
    ensures "S" + "\n\n" + "User: A\nAssistant: B\n" + "User: C\nAssistant:"
         == "S\n\nUser: A\nAssistant: B\nUser: C\nAssistant:"
  {
  }
}

=== FILE: quota_period.dfy ===
/** A run of requests from one user to one block within a single rate-limit
    period: the quota admits exactly the configured number of answered
    questions and denies the rest. */
module QuotaPeriod {
  import opened Wrappers
  import opened BlockConfig
  import opened Usage
  import opened Prompt
  import opened Relay
  import RelayProperties

  datatype Request = Request(message: string, history: HistoryInput, now: int, gen: Generation)

  /** The requests in order, each seeing the table the previous one left. */
  function Replay(t: Table, cfg: Config, instance: int, user: int, reqs: seq<Request>): (r: (Table, seq<Outcome>))
    ensures |r.1| == |reqs|
    ensures forall i :: 0 <= i < |r.1| ==> !r.1[i].BlockNotFound?
    ensures forall i :: 0 <= i < |r.1| && r.1[i].RateLimited? ==> RateLimitOn(cfg)
    decreases |reqs|
  {
    if reqs == [] then (t, [])
    else
      var s := Process(t, Some(cfg), instance, user, reqs[0].message, reqs[0].history, reqs[0].now, reqs[0].gen);
      var rest := Replay(s.table, cfg, instance, user, reqs[1..]);
      (rest.0, [s.outcome] + rest.1)
  }

  /** A request whose history the session cap lets through and whose
      generation succeeds. */
  predicate Answerable(cfg: Config, q: Request)
  {
    !Capped(MaxMessages(cfg), |Parse(q.history)|) && q.gen.Generated?
  }

  /** Every request is answerable and falls in the period that began at
      `start`. */
  predicate InPeriod(cfg: Config, reqs: seq<Request>, start: int)
  {
    forall i :: 0 <= i < |reqs| ==>
      Answerable(cfg, reqs[i]) && start <= reqs[i].now < start + PeriodSeconds(PeriodName(cfg))
  }

  /** One answerable request inside the period of a live record: answered
      and counted while the count is below the limit, denied otherwise. */
  lemma LiveStep(t: Table, cfg: Config, instance: int, user: int, q: Request,
                 c: int, start: int, last: int)
    requires RateLimitOn(cfg)
    requires Key(instance, user) in t && t[Key(instance, user)] == Record(c, start, last)
    requires start <= last
    requires Answerable(cfg, q) && start <= q.now < start + PeriodSeconds(PeriodName(cfg))
    ensures var s := Process(t, Some(cfg), instance, user, q.message, q.history, q.now, q.gen);
      var key := Key(instance, user);
      if c < Count(cfg) then
        && s.outcome.Replied? && s.outcome.remaining == Count(cfg) - (c + 1)
        && key in s.table && s.table[key] == Record(c + 1, start, q.now)
      else
        && s.outcome == RateLimited(Count(cfg), PeriodName(cfg))
        && key in s.table && s.table[key] == Record(c, start, last)
  {
    var key := Key(instance, user);
    PurgeKeepsRecent(t, key, q.now);
    if c < Count(cfg) {
      RelayProperties.SuccessCountsOne(t, cfg, instance, user, q.message, q.history, q.now, q.gen);
      RelayProperties.OthersAdmitted(t, cfg, instance, user, q.message, q.history, q.now, q.gen);
    } else {
      RelayProperties.ExhaustedDenies(t, cfg, instance, user, q.message, q.history, q.now, q.gen);
    }
  }

  /** The first request of a pair without a live-or-stale record is admitted
      against a fresh record and, when answered, counts as question one. This
      holds for any limit, 0 or less included, because a fresh record is
      admitted without comparing it against the limit. */
  lemma FreshStep(t: Table, cfg: Config, instance: int, user: int, q: Request)
    requires RateLimitOn(cfg)
    requires Key(instance, user) !in Purge(t, q.now)
    requires Answerable(cfg, q)
    ensures var s := Process(t, Some(cfg), instance, user, q.message, q.history, q.now, q.gen);
      && s.outcome.Replied? && s.outcome.remaining == Count(cfg) - 1
      && Key(instance, user) in s.table && s.table[Key(instance, user)] == Record(1, q.now, q.now)
  {
    RelayProperties.SuccessCountsOne(t, cfg, instance, user, q.message, q.history, q.now, q.gen);
    RelayProperties.OthersAdmitted(t, cfg, instance, user, q.message, q.history, q.now, q.gen);
  }

  lemma InPeriodTail(cfg: Config, reqs: seq<Request>, start: int)
    requires reqs != [] && InPeriod(cfg, reqs, start)
    ensures InPeriod(cfg, reqs[1..], start)
  {
    forall i | 0 <= i < |reqs[1..]|
      ensures Answerable(cfg, reqs[1..][i]) && start <= reqs[1..][i].now < start + PeriodSeconds(PeriodName(cfg))
    {
      assert reqs[1..][i] == reqs[i + 1];
    }
  }

  /** The outcomes of a run that starts with `c` questions counted against a
      limit of `n`: answered while the count is below the limit, each
      reporting the questions left, and `denial` from then on. */
  predicate CountsDown(outs: seq<Outcome>, c: int, n: int, denial: Outcome)
  {
    forall i :: 0 <= i < |outs| ==>
      if c + i < n then outs[i].Replied? && outs[i].remaining == n - (c + i + 1)
      else outs[i] == denial
  }

  lemma CountsDownCons(first: Outcome, rest: seq<Outcome>, c: int, n: int, denial: Outcome)
    requires if c < n then first.Replied? && first.remaining == n - (c + 1) else first == denial
    requires CountsDown(rest, if c < n then c + 1 else c, n, denial)
    ensures CountsDown([first] + rest, c, n, denial)
  {
    var outs := [first] + rest;
    forall i | 0 <= i < |outs|
      ensures if c + i < n then outs[i].Replied? && outs[i].remaining == n - (c + i + 1)
              else outs[i] == denial
    {
      if i > 0 {
        assert outs[i] == rest[i - 1];
      }
    }
  }

  /** From a live record with `c` questions counted, the i-th further request
      is answered exactly when `c + i` is below the limit, reporting the
      questions left; every later one is denied. */
  lemma {:induction false} QuotaRun(t: Table, cfg: Config, instance: int, user: int,
                                    reqs: seq<Request>, c: int, start: int, last: int)
    requires RateLimitOn(cfg)
    requires Key(instance, user) in t && t[Key(instance, user)] == Record(c, start, last)
    requires start <= last
    requires InPeriod(cfg, reqs, start)
    ensures CountsDown(Replay(t, cfg, instance, user, reqs).1, c, Count(cfg),
                       RateLimited(Count(cfg), PeriodName(cfg)))
    decreases |reqs|
  {
    if reqs != [] {
      var q := reqs[0];
      var s := Process(t, Some(cfg), instance, user, q.message, q.history, q.now, q.gen);
      var rest := Replay(s.table, cfg, instance, user, reqs[1..]).1;
      assert Replay(t, cfg, instance, user, reqs).1 == [s.outcome] + rest;
      LiveStep(t, cfg, instance, user, q, c, start, last);
      InPeriodTail(cfg, reqs, start);
      if c < Count(cfg) {
        QuotaRun(s.table, cfg, instance, user, reqs[1..], c + 1, start, q.now);
      } else {
        QuotaRun(s.table, cfg, instance, user, reqs[1..], c, start, last);
      }
      CountsDownCons(s.outcome, rest, c, Count(cfg), RateLimited(Count(cfg), PeriodName(cfg)));
    }
  }

  /** A pair with no record (or only a stale one) that sends requests within
      one period, starting from the first one's time, gets exactly the limit
      of answers, counting down the remaining questions, and is denied after
      that. */
  lemma FullPeriod(t: Table, cfg: Config, instance: int, user: int, reqs: seq<Request>)
    requires RateLimitOn(cfg) && Count(cfg) >= 1
    requires reqs != [] && Key(instance, user) !in Purge(t, reqs[0].now)
    requires InPeriod(cfg, reqs, reqs[0].now)
    ensures CountsDown(Replay(t, cfg, instance, user, reqs).1, 0, Count(cfg),
                       RateLimited(Count(cfg), PeriodName(cfg)))
  {
    var q := reqs[0];
    var s := Process(t, Some(cfg), instance, user, q.message, q.history, q.now, q.gen);
    var rest := Replay(s.table, cfg, instance, user, reqs[1..]).1;
    assert Replay(t, cfg, instance, user, reqs).1 == [s.outcome] + rest;
    FreshStep(t, cfg, instance, user, q);
    InPeriodTail(cfg, reqs, q.now);
    QuotaRun(s.table, cfg, instance, user, reqs[1..], 1, q.now, q.now);
    CountsDownCons(s.outcome, rest, 0, Count(cfg), RateLimited(Count(cfg), PeriodName(cfg)));
  }
}

=== FILE: relay.dfy ===
/** One relay request, shared by the web-service handler and the legacy AJAX
    script: retention purge, rate gate, history parse, session cap, prompt
    assembly, generation and commit. Clock reads are the parameter `now`; the
    text generator's answer is the parameter `gen`. */
module Relay {
  import opened Wrappers
  import opened Text
  import opened BlockConfig
  import opened Usage
  import opened Prompt

  /** What the text generator did with the prompt: produced a response (whose
      content field may be missing), reported failure, or threw. */
  datatype Generation =
    | Generated(content: Option<string>)
    | Failed(errormessage: string)
    | Threw(message: string)

  /** How a request ended. */
  datatype Outcome =
    | BlockNotFound
    | RateLimited(limit: int, period: string)
    | SessionCapped
    | Replied(reply: string, remaining: int)
    | GenerationFailed(error: string)

  /** The error a response reports; the localised texts are kept as their
      parameters. */
  datatype ErrorText =
    | NoError
    | BlockMissing
    | RateLimitReached(limit: int, period: string)
    | MaxMessagesReached
    | Plain(text: string)

  /** The outcome, the usage table afterwards, and the prompt handed to the
      generator (`None` when the request never reached it). */
  datatype Step = Step(outcome: Outcome, table: Table, prompt: Option<string>)

  /** Whether the admitted request is metered, and by which limit and record. */
  datatype Quota = Unmetered | Metered(lim: Limit, record: Record)

  const GENERIC_FAILURE: string := "AI generation failed"

  /** The error message of a failed generation: the generator's own message
      unless it is falsy in PHP, and the exception's message after "Error: ". */
  function FailureMessage(gen: Generation): (m: string)
    requires !gen.Generated?
    ensures gen.Failed? && PhpTruthy(gen.errormessage) ==> m == gen.errormessage
    ensures gen.Failed? && !PhpTruthy(gen.errormessage) ==> m == GENERIC_FAILURE
    ensures gen.Threw? ==> |m| == |gen.message| + 7 && m[..7] == "Error: " && m[7..] == gen.message
  {
    match gen
    case Failed(e) => if PhpTruthy(e) then e else GENERIC_FAILURE
    case Threw(e) => "Error: " + e
  }

  /** The error reported for an outcome. */
  function ErrorOf(o: Outcome): ErrorText
  {
    match o
    case BlockNotFound => BlockMissing
    case RateLimited(limit, period) => RateLimitReached(limit, period)
    case SessionCapped => MaxMessagesReached
    case Replied(_, _) => NoError
    case GenerationFailed(e) => Plain(e)
  }

  /** The part of a request after the rate gate has admitted it. */
  function Answer(cfg: Config, t: Table, key: Key, quota: Quota, message: string,
                  history: HistoryInput, now: int, gen: Generation): (r: Step)
    ensures !r.outcome.RateLimited? && !r.outcome.BlockNotFound?
    ensures r.outcome.SessionCapped? <==> Capped(MaxMessages(cfg), |Parse(history)|)
    ensures r.prompt.Some? <==> !r.outcome.SessionCapped?
    ensures r.outcome.Replied? <==> !r.outcome.SessionCapped? && gen.Generated?
    ensures r.outcome.Replied? ==> r.outcome.reply == PhpTrim(gen.content.GetOr(""))
    ensures r.outcome.Replied? && quota.Metered? ==>
              r.table == t[key := Commit(quota.record, now)]
              && r.outcome.remaining == quota.lim.count - r.table[key].messagecount
    ensures !(r.outcome.Replied? && quota.Metered?) ==> r.table == t
    ensures r.outcome.Replied? && quota.Unmetered? ==> r.outcome.remaining == -1
  {
    var entries := Parse(history);
    if Capped(MaxMessages(cfg), |entries|) then
      Step(SessionCapped, t, None)
    else
      var prompt := Build(SystemPrompt(cfg), entries, message);
      match gen
      case Generated(content) =>
        var reply := PhpTrim(content.GetOr(""));
        (match quota
         case Unmetered => Step(Replied(reply, -1), t, Some(prompt))
         case Metered(lim, rec) =>
           var counted := Commit(rec, now);
           Step(Replied(reply, lim.count - counted.messagecount), t[key := counted], Some(prompt)))
      case _ =>
        Step(GenerationFailed(FailureMessage(gen)), t, Some(prompt))
  }

  /** One request from `user` to block `instance`. `block` is `None` when the
      block cannot be instantiated; then nothing else happens, not even the
      purge. */
  function Process(t: Table, block: Option<Config>, instance: int, user: int, message: string,
                   history: HistoryInput, now: int, gen: Generation): (r: Step)
    ensures block.None? ==> r == Step(BlockNotFound, t, None)
    ensures block.Some? && !RateLimitOn(block.value) ==>
              r.table == Purge(t, now) && !r.outcome.RateLimited?
    ensures r.prompt.Some? <==> r.outcome.Replied? || r.outcome.GenerationFailed?
  {
    match block
    case None => Step(BlockNotFound, t, None)
    case Some(cfg) =>
      var purged := Purge(t, now);
      var key := Key(instance, user);
      match Limits(cfg)
      case None => Answer(cfg, purged, key, Unmetered, message, history, now, gen)
      case Some(lim) =>
        match CheckGate(purged, key, lim, now)
        case Denied => Step(RateLimited(lim.count, lim.period), purged, None)
        case Admitted(rec) =>
          Answer(cfg, purged[key := rec], key, Metered(lim, rec), message, history, now, gen)
  }
}

=== FILE: relay_properties.dfy ===
/** Properties of a single relay request: what the rate gate, the session cap
    and the generator's answer do to the outcome and to the usage table. */
module RelayProperties {
  import opened Wrappers
  import opened Text
  import opened BlockConfig
  import opened Usage
  import opened Prompt
  import opened Relay

  /** The pair's record has used up its quota for the current period. */
  predicate Exhausted(t: Table, cfg: Config, key: Key, now: int)
  {
    && RateLimitOn(cfg)
    && key in Purge(t, now)
    && now - Purge(t, now)[key].firstmessage < PeriodSeconds(PeriodName(cfg))
    && Purge(t, now)[key].messagecount >= Count(cfg)
  }

  /** The pair's record, if any, is still within its period. */
  predicate Live(t: Table, cfg: Config, key: Key, now: int)
  {
    key in Purge(t, now) && now - Purge(t, now)[key].firstmessage < PeriodSeconds(PeriodName(cfg))
  }

  /** A request touches no record but its own pair's, apart from the purge,
      which drops stale records of every instance and user. */
  lemma OnlyOwnRecordChanges(t: Table, cfg: Config, instance: int, user: int,
                             message: string, history: HistoryInput, now: int, gen: Generation)
    ensures var r := Process(t, Some(cfg), instance, user, message, history, now, gen);
      forall k :: k != Key(instance, user) ==>
        (k in r.table <==> k in t && !Stale(t[k], now)) && (k in r.table ==> r.table[k] == t[k])
  {
    var key := Key(instance, user);
    var p := Purge(t, now);
    var r := Process(t, Some(cfg), instance, user, message, history, now, gen);
    match Limits(cfg)
    case None =>
      assert r.table == p;
    case Some(lim) =>
      match CheckGate(p, key, lim, now)
      case Denied =>
        assert r.table == p;
      case Admitted(rec) =>
        var a := Answer(cfg, p[key := rec], key, Metered(lim, rec), message, history, now, gen);
        assert r == a;
        assert a.table == p[key := rec] || a.table == p[key := rec][key := Commit(rec, now)];
  }

  /** With rate limiting off the usage table plays no part in the answer,
      only the purge touches it, and every answer reports -1 remaining. */
  lemma UnmeteredIgnoresUsage(t1: Table, t2: Table, cfg: Config, instance: int, user: int,
                              message: string, history: HistoryInput, now: int, gen: Generation)
    requires !RateLimitOn(cfg)
    ensures var r1 := Process(t1, Some(cfg), instance, user, message, history, now, gen);
      var r2 := Process(t2, Some(cfg), instance, user, message, history, now, gen);
      && r1.outcome == r2.outcome && r1.prompt == r2.prompt
      && r1.table == Purge(t1, now)
      && (r1.outcome.Replied? ==> r1.outcome.remaining == -1)
  {
  }

  /** An exhausted record denies the request: the answer is the limit and
      period, nothing is generated and nothing but the purge changes. */
  lemma ExhaustedDenies(t: Table, cfg: Config, instance: int, user: int,
                        message: string, history: HistoryInput, now: int, gen: Generation)
    requires Exhausted(t, cfg, Key(instance, user), now)
    ensures Process(t, Some(cfg), instance, user, message, history, now, gen)
         == Step(RateLimited(Count(cfg), PeriodName(cfg)), Purge(t, now), None)
  {
  }

  /** Any other request passes the gate; it then stops at the session cap
      exactly when the history is full, and otherwise is answered exactly when
      the generator succeeds. */
  lemma OthersAdmitted(t: Table, cfg: Config, instance: int, user: int,
                       message: string, history: HistoryInput, now: int, gen: Generation)
    requires !Exhausted(t, cfg, Key(instance, user), now)
    ensures var r := Process(t, Some(cfg), instance, user, message, history, now, gen);
      && !r.outcome.RateLimited?
      && (r.outcome.SessionCapped? <==> Capped(MaxMessages(cfg), |Parse(history)|))
      && (r.outcome.Replied? <==> !Capped(MaxMessages(cfg), |Parse(history)|) && gen.Generated?)
      && (r.outcome.GenerationFailed? <==> !Capped(MaxMessages(cfg), |Parse(history)|) && !gen.Generated?)
      && (r.outcome.GenerationFailed? ==> r.outcome.error == FailureMessage(gen))
      && (r.prompt.Some? ==> r.prompt.value == Build(SystemPrompt(cfg), Parse(history), message))
  {
  }

  /** The record the gate lets through when the pair is not exhausted: the
      live record as stored, or a fresh one. */
  function GateRecord(t: Table, cfg: Config, key: Key, now: int): Record
  {
    if Live(t, cfg, key, now) then Purge(t, now)[key] else Fresh(now)
  }

  /** With rate limiting on and quota left, a request is its admitted part,
      run on the purged table holding the gate's record. */
  lemma ThroughGate(t: Table, cfg: Config, instance: int, user: int,
                    message: string, history: HistoryInput, now: int, gen: Generation)
    requires RateLimitOn(cfg) && !Exhausted(t, cfg, Key(instance, user), now)
    ensures var key := Key(instance, user);
      var rec := GateRecord(t, cfg, key, now);
      Process(t, Some(cfg), instance, user, message, history, now, gen)
        == Answer(cfg, Purge(t, now)[key := rec], key, Metered(Limits(cfg).value, rec),
                  message, history, now, gen)
  {
    var key := Key(instance, user);
    var lim := Limits(cfg).value;
    assert CheckGate(Purge(t, now), key, lim, now) == Admitted(GateRecord(t, cfg, key, now));
  }

  /** A successful generation counts exactly one question: the count rises by
      one over what the gate admitted (zero for a new or expired record), the
      last-message time is now, the remaining count is the limit minus the
      new count, and the reply is the generated text trimmed. */
  lemma SuccessCountsOne(t: Table, cfg: Config, instance: int, user: int,
                         message: string, history: HistoryInput, now: int, gen: Generation)
    requires RateLimitOn(cfg)
    ensures var r := Process(t, Some(cfg), instance, user, message, history, now, gen);
      var key := Key(instance, user);
      r.outcome.Replied? ==>
        && key in r.table
        && r.table[key].messagecount
             == 1 + (if Live(t, cfg, key, now) then Purge(t, now)[key].messagecount else 0)
        && r.table[key].firstmessage
             == (if Live(t, cfg, key, now) then Purge(t, now)[key].firstmessage else now)
        && r.table[key].lastmessage == now
        && r.outcome.remaining == Count(cfg) - r.table[key].messagecount
        && r.outcome.reply == PhpTrim(gen.content.GetOr(""))
        && Trimmed(r.outcome.reply, PHP_TRIM_CHARS)
  {
    var key := Key(instance, user);
    if Exhausted(t, cfg, key, now) {
      ExhaustedDenies(t, cfg, instance, user, message, history, now, gen);
    } else {
      ThroughGate(t, cfg, instance, user, message, history, now, gen);
      if gen.Generated? {
        TrimIsTrimmed(gen.content.GetOr(""), PHP_TRIM_CHARS);
      }
    }
  }

  /** A request that is not answered (denied, capped, or failed) never
      changes a count: a live record stays as it was, and with rate limiting on
      a new or expired pair is left with a fresh record, which is persisted
      although the request fails. */
  lemma UnansweredCountsNothing(t: Table, cfg: Config, instance: int, user: int,
                                message: string, history: HistoryInput, now: int, gen: Generation)
    ensures var r := Process(t, Some(cfg), instance, user, message, history, now, gen);
      var key := Key(instance, user);
      !r.outcome.Replied? ==>
        && (key in Purge(t, now) && (!RateLimitOn(cfg) || Live(t, cfg, key, now)) ==>
              key in r.table && r.table[key] == Purge(t, now)[key])
        && (RateLimitOn(cfg) && !Live(t, cfg, key, now) ==>
              key in r.table && r.table[key] == Fresh(now))
        && (!RateLimitOn(cfg) ==> (key in r.table <==> key in Purge(t, now)))
  {
  }

  /** An expired record is treated exactly like a missing one: the request
      behaves as the pair's first message of a fresh period. */
  lemma ExpiredLikeAbsent(t: Table, cfg: Config, instance: int, user: int,
                          message: string, history: HistoryInput, now: int, gen: Generation)
    requires RateLimitOn(cfg)
    requires Key(instance, user) in Purge(t, now)
    requires !Live(t, cfg, Key(instance, user), now)
    ensures Process(t, Some(cfg), instance, user, message, history, now, gen)
         == Process(t - {Key(instance, user)}, Some(cfg), instance, user, message, history, now, gen)
  {
    var key := Key(instance, user);
    var p := Purge(t, now);
    var q := Purge(t - {key}, now);
    assert q == p - {key};
    var lim := Limits(cfg).value;
    assert CheckGate(p, key, lim, now) == Admitted(Fresh(now));
    assert CheckGate(q, key, lim, now) == Admitted(Fresh(now));
    assert p[key := Fresh(now)] == q[key := Fresh(now)];
  }

  /** A record older than the retention window is purged before anything
      else, so the request behaves as if the pair had never been seen. */
  lemma StaleLikeAbsent(t: Table, cfg: Config, instance: int, user: int,
                        message: string, history: HistoryInput, now: int, gen: Generation)
    requires Key(instance, user) in t && Stale(t[Key(instance, user)], now)
    ensures Process(t, Some(cfg), instance, user, message, history, now, gen)
         == Process(t - {Key(instance, user)}, Some(cfg), instance, user, message, history, now, gen)
  {
    assert Purge(t, now) == Purge(t - {Key(instance, user)}, now);
  }

  function Max(a: int, b: int): int
  {
    if a < b then b else a
  }

  /** The quota is never exceeded: with the same limit in force, a count
      within the limit stays within it. A limit below one still lets one
      question through per period, because new and expired records are
      admitted without a comparison. */
  lemma QuotaNeverExceeded(t: Table, cfg: Config, instance: int, user: int,
                           message: string, history: HistoryInput, now: int, gen: Generation)
    requires RateLimitOn(cfg)
    requires Key(instance, user) in t ==> t[Key(instance, user)].messagecount <= Max(Count(cfg), 1)
    ensures var r := Process(t, Some(cfg), instance, user, message, history, now, gen);
      Key(instance, user) in r.table ==> r.table[Key(instance, user)].messagecount <= Max(Count(cfg), 1)
  {
  }
}

=== FILE: session.dfy ===
/** The page and the web service together: what the page sends is what the
    handler parses, and what the handler answers is what the page shows. */
module Session {
  import opened Wrappers
  import opened Text
  import opened BlockConfig
  import opened Usage
  import opened Prompt
  import opened Relay
  import opened ChatClient
  import ExternalService
  import RelayProperties

  function RoleName(r: Role): string
  {
    match r
    case User => "user"
    case Assistant => "assistant"
  }

  /** The page's history as the handler sees it after the JSON round trip. */
  function Encode(h: seq<Turn>): HistoryInput
  {
    Entries(seq(|h|, i requires 0 <= i < |h| => Message(RoleName(h[i].role), h[i].content)))
  }

  /** A service response as delivered to the page: `remaining` always set. */
  function Deliver(resp: ExternalService.Response): (r: Reply)
    ensures r.remaining.Some?
  {
    Reply(resp.success, resp.error, resp.reply, Some(resp.remaining))
  }

  lemma EncodeAppend(h: seq<Turn>, t: Turn)
    ensures Encode(h + [t]).items == Encode(h).items + [Message(RoleName(t.role), t.content)]
  {
  }

  /** A history that ends with the question `m`, sent with `m`, yields a
      prompt that carries `m` twice. */
  lemma PromptOfEchoedQuestion(systemprompt: string, earlier: seq<Turn>, m: string)
    ensures Build(systemprompt, Parse(Encode(earlier + [Turn(User, m)])), m)
         == systemprompt + "\n\n" + Transcript(Parse(Encode(earlier)))
            + "User: " + m + "\n" + "User: " + m + "\nAssistant:"
  {
    var e := Message("user", m);
    var before := Encode(earlier).items;
    EncodeAppend(earlier, Turn(User, m));
    TranscriptAppend(before, e);
    assert Line(e) == "User: " + m + "\n";
    var head := systemprompt + "\n\n";
    calc {
      Build(systemprompt, before + [e], m);
      head + Transcript(before + [e]) + Cue(m);
      head + (Transcript(before) + Line(e)) + Cue(m);
      head + Transcript(before) + ("User: " + m + "\n") + ("User: " + m + "\nAssistant:");
    }
  }

  /** The history the page sends ends with the new question, so the handler's
      prompt carries that question twice: once from the history and once as
      the closing question. */
  lemma PromptRepeatsQuestion(s: Chat, systemprompt: string)
    requires !AllIn(s.draft, JS_TRIM_CHARS)
    ensures var sent := SendMessage(s).1;
      var m := sent.message;
      Build(systemprompt, Parse(Encode(sent.history)), m)
        == systemprompt + "\n\n" + Transcript(Parse(Encode(s.history)))
           + "User: " + m + "\n" + "User: " + m + "\nAssistant:"
  {
    var sent := SendMessage(s).1;
    PromptOfEchoedQuestion(systemprompt, s.history, sent.message);
  }

  /** After k questions answered in a session, the next question is stopped
      by the session cap exactly when k has reached a positive maximum: the
      cap allows `maxmessages` answered questions per session. */
  lemma SessionCapAfterExchanges(s: Chat, maxmessages: int, k: nat)
    requires !AllIn(s.draft, JS_TRIM_CHARS)
    requires |s.history| == 2 * k
    ensures Capped(maxmessages, |Parse(Encode(SendMessage(s).1.history))|)
        <==> maxmessages > 0 && k >= maxmessages
  {
  }

  /** Clearing the chat empties the history, so the next question can never
      hit the session cap, whatever the block's maximum; it does not touch the
      server's usage record or the page's remaining count. */
  lemma ClearEscapesSessionCap(s: Chat, text: string, maxmessages: int)
    requires !AllIn(text, JS_TRIM_CHARS)
    ensures var cleared := ClearChat(s).(draft := text);
      && cleared.remainingQuestions == s.remainingQuestions
      && !Capped(maxmessages, |Parse(Encode(SendMessage(cleared).1.history))|)
  {
  }

  /** A denial by an exhausted quota reaches the page as a 0 banner. As
      written, the input then stays locked only if the page had already
      stored 0; with the intended denial branch it is locked with 0 stored. */
  lemma DenialOnPage(s: Chat, t: Table, cfg: Config, instance: int, user: int, now: int, gen: Generation)
    requires !AllIn(s.draft, JS_TRIM_CHARS)
    requires RelayProperties.Exhausted(t, cfg, Key(instance, user), now)
    ensures var (asked, sent) := SendMessage(s);
      var served := ExternalService.Execute(t, Some(cfg), instance, user, sent.message,
                                           Encode(sent.history), now, gen);
      var shown := OnDone(asked, Deliver(served.response)).0;
      && served.table == Purge(t, now)
      && shown.display == Shown(0)
      && shown.history == asked.history
      && (shown.inputDisabled <==> s.remainingQuestions == 0)
      && var fixed := OnDoneIntended(asked, Deliver(served.response)).0;
         fixed.inputDisabled && fixed.remainingQuestions == 0 && fixed.display == Shown(0)
  {
    var (asked, sent) := SendMessage(s);
    RelayProperties.ExhaustedDenies(t, cfg, instance, user, sent.message, Encode(sent.history), now, gen);
  }

  /** Any successful, non-empty response delivered to the page after a
      question extends the history by the question and the answer. */
  lemma AnswerShown(s: Chat, resp: ExternalService.Response)
    requires !AllIn(s.draft, JS_TRIM_CHARS)
    requires resp.success && resp.reply != ""
    ensures var (asked, sent) := SendMessage(s);
      var shown := OnDone(asked, Deliver(resp)).0;
      && shown.history == s.history + [Turn(User, sent.message), Turn(Assistant, resp.reply)]
      && shown.messageCount == s.messageCount + 1
      && shown.remainingQuestions == resp.remaining
      && shown.display == UpdateRemaining(resp.remaining)
      && (shown.inputDisabled <==> resp.remaining == 0)
  {
    var (asked, sent) := SendMessage(s);
    var shown := OnDone(asked, Deliver(resp)).0;
    assert (s.history + [Turn(User, sent.message)]) + [Turn(Assistant, resp.reply)]
        == s.history + [Turn(User, sent.message), Turn(Assistant, resp.reply)];
  }

  /** An answered question leaves the page's history extended by the question
      and the trimmed answer (when that is not empty), with the service's
      remaining count stored and shown. */
  lemma AnswerOnPage(s: Chat, t: Table, block: Option<Config>, instance: int, user: int,
                     now: int, gen: Generation)
    requires !AllIn(s.draft, JS_TRIM_CHARS)
    ensures var (asked, sent) := SendMessage(s);
      var served := ExternalService.Execute(t, block, instance, user, sent.message,
                                           Encode(sent.history), now, gen);
      var shown := OnDone(asked, Deliver(served.response)).0;
      served.response.success && served.response.reply != "" ==>
        && shown.history == s.history + [Turn(User, sent.message), Turn(Assistant, served.response.reply)]
        && shown.messageCount == s.messageCount + 1
        && shown.remainingQuestions == served.response.remaining
        && shown.display == UpdateRemaining(served.response.remaining)
        && (shown.inputDisabled <==> served.response.remaining == 0)
  {
    var sent := SendMessage(s).1;
    var resp := ExternalService.Execute(t, block, instance, user, sent.message,
                                        Encode(sent.history), now, gen).response;
    if resp.success && resp.reply != "" {
      AnswerShown(s, resp);
    }
  }
}

=== FILE: text.dfy ===
/** Whitespace trimming as done by PHP's `trim` and JavaScript's
    `String.prototype.trim`; the two differ only in their character sets. */
module Text {

  /** The characters PHP's `trim` strips by default. */
  const PHP_TRIM_CHARS: set<char> := {' ', '\t', '\n', '\r', '\0', '\U{0B}'}

  /** ECMAScript WhiteSpace and LineTerminator code points. */
  const JS_TRIM_CHARS: set<char> :=
    {'\t', '\n', '\U{0B}', '\U{0C}', '\r', ' ', '\U{A0}', '\U{1680}',
     '\U{2000}', '\U{2001}', '\U{2002}', '\U{2003}', '\U{2004}', '\U{2005}',
     '\U{2006}', '\U{2007}', '\U{2008}', '\U{2009}', '\U{200A}',
     '\U{2028}', '\U{2029}', '\U{202F}', '\U{205F}', '\U{3000}', '\U{FEFF}'}

  /** Every character of `s` belongs to `ws`. */
  predicate AllIn(s: string, ws: set<char>)
  {
    forall i :: 0 <= i < |s| ==> s[i] in ws
  }

  /** `s` neither starts nor ends with a character of `ws`. */
  predicate Trimmed(s: string, ws: set<char>)
  {
    s != [] ==> s[0] !in ws && s[|s| - 1] !in ws
  }

  /** Drops the longest prefix of `s` made of characters of `ws`. */
  function TrimStart(s: string, ws: set<char>): (r: string)
    ensures |r| <= |s| && r == s[|s| - |r|..]
    ensures AllIn(s[..|s| - |r|], ws)
    ensures r != [] ==> r[0] !in ws
    decreases |s|
  {
    if s != [] && s[0] in ws then TrimStart(s[1..], ws) else s
  }

  /** Drops the longest suffix of `s` made of characters of `ws`. */
  function TrimEnd(s: string, ws: set<char>): (r: string)
    ensures |r| <= |s| && r == s[..|r|]
    ensures AllIn(s[|r|..], ws)
    ensures r != [] ==> r[|r| - 1] !in ws
    decreases |s|
  {
    if s != [] && s[|s| - 1] in ws then TrimEnd(s[..|s| - 1], ws) else s
  }

  /** Strips characters of `ws` from both ends of `s`. */
  function Trim(s: string, ws: set<char>): (r: string)
  {
    TrimEnd(TrimStart(s, ws), ws)
  }

  /** PHP's `trim($s)`. */
  function PhpTrim(s: string): string
  {
    Trim(s, PHP_TRIM_CHARS)
  }

  /** JavaScript's `s.trim()`. */
  function JsTrim(s: string): string
  {
    Trim(s, JS_TRIM_CHARS)
  }

  /** Where the trimmed string starts inside the input. */
  function TrimOffset(s: string, ws: set<char>): (a: nat)
    ensures a <= |s|
  {
    |s| - |TrimStart(s, ws)|
  }

  /** The trimmed string starts and ends outside `ws`. */
  lemma TrimIsTrimmed(s: string, ws: set<char>)
    ensures Trimmed(Trim(s, ws), ws)
  {
    var t := TrimStart(s, ws);
    var r := TrimEnd(t, ws);
    if r != [] {
      assert r[0] == t[0];
    }
  }

  /** The trimmed string is the slice of the input that begins at
      `TrimOffset`. */
  lemma TrimIsSlice(s: string, ws: set<char>)
    ensures TrimOffset(s, ws) + |Trim(s, ws)| <= |s|
    ensures Trim(s, ws) == s[TrimOffset(s, ws)..TrimOffset(s, ws) + |Trim(s, ws)|]
  {
    var t := TrimStart(s, ws);
    var r := TrimEnd(t, ws);
    var a := |s| - |t|;
    assert t == s[a..];
    assert r == t[..|r|];
  }

  /** Everything cut away on either side is in `ws`. */
  lemma TrimCutsOnlyWhitespace(s: string, ws: set<char>)
    ensures TrimOffset(s, ws) + |Trim(s, ws)| <= |s|
    ensures AllIn(s[..TrimOffset(s, ws)], ws)
    ensures AllIn(s[TrimOffset(s, ws) + |Trim(s, ws)|..], ws)
  {
    var t := TrimStart(s, ws);
    var r := TrimEnd(t, ws);
    var a := |s| - |t|;
    assert t == s[a..];
    assert s[a + |r|..] == t[|r|..];
  }

  /** The result is empty exactly when the input is made of `ws` only. */
  lemma TrimEmptyIffBlank(s: string, ws: set<char>)
    ensures Trim(s, ws) == [] <==> AllIn(s, ws)
  {
    TrimCutsOnlyWhitespace(s, ws);
    var a := TrimOffset(s, ws);
    assert s == s[..a] + s[a..];
  }

  /** Trimming twice is trimming once. */
  lemma TrimIdempotent(s: string, ws: set<char>)
    ensures Trim(Trim(s, ws), ws) == Trim(s, ws)
  {
    TrimIsTrimmed(s, ws);
  }

  /** A string that already starts and ends outside `ws` is left alone. */
  lemma TrimFixesTrimmed(s: string, ws: set<char>)
    requires Trimmed(s, ws)
    ensures Trim(s, ws) == s
  {
  }

  /** The concatenation of `f` applied to each element of `h`, in order. */
  function Join<T>(h: seq<T>, f: T -> string): string
  {
    if h == [] then "" else f(h[0]) + Join(h[1..], f)
  }

  /** Joining one more element appends that element's text. */
  lemma {:induction false} JoinAppend<T>(h: seq<T>, x: T, f: T -> string)
    ensures Join(h + [x], f) == Join(h, f) + f(x)
  {
    if h == [] {
      assert h + [x] == [x];
      assert [x][1..] == [];
    } else {
      assert (h + [x])[0] == h[0];
      assert (h + [x])[1..] == h[1..] + [x];
      JoinAppend(h[1..], x, f);
    }
  }

  /** Joining two sequences one after the other. */
  lemma {:induction false} JoinConcat<T>(a: seq<T>, b: seq<T>, f: T -> string)
    ensures Join(a + b, f) == Join(a, f) + Join(b, f)
  {
    if a == [] {
      assert a + b == b;
    } else {
      assert (a + b)[0] == a[0];
      assert (a + b)[1..] == a[1..] + b;
      JoinConcat(a[1..], b, f);
    }
  }
}

=== FILE: usage.dfy ===
/** The usage table behind the rate limiter: one record per (block instance,
    user) pair, the retention purge, the admission gate and the commit. */
module Usage {
  import opened BlockConfig

  /** Records whose last message is older than this many seconds are purged. */
  const RETENTION_SECONDS: int := 7 * 86400

  datatype Key = Key(instance: int, user: int)

  /** Questions counted in the current period, when the period began, and the
      time of the latest counted question (or of the reset). */
  datatype Record = Record(messagecount: int, firstmessage: int, lastmessage: int)

  type Table = map<Key, Record>

  /** The record of a pair seen for the first time, or whose period ran out. */
  function Fresh(now: int): Record
  {
    Record(0, now, now)
  }

  predicate Stale(r: Record, now: int)
  {
    r.lastmessage < now - RETENTION_SECONDS
  }

  /** The retention purge: drops every stale record of every instance and
      user, and keeps every other record as it is. */
  function Purge(t: Table, now: int): (r: Table)
    ensures forall k :: k in r <==> k in t && !Stale(t[k], now)
    ensures forall k :: k in r ==> r[k] == t[k]
  {
    map k | k in t && !Stale(t[k], now) :: t[k]
  }

  /** Purging twice at the same time removes nothing more. */
  lemma PurgeIdempotent(t: Table, now: int)
    ensures Purge(Purge(t, now), now) == Purge(t, now)
  {
  }

  /** A record younger than the retention window survives the purge. */
  lemma PurgeKeepsRecent(t: Table, k: Key, now: int)
    requires k in t && t[k].lastmessage >= now - RETENTION_SECONDS
    ensures k in Purge(t, now) && Purge(t, now)[k] == t[k]
  {
  }

  predicate Expired(r: Record, lim: Limit, now: int)
  {
    now - r.firstmessage >= lim.periodSeconds
  }

  /** The gate's verdict; an admitted request carries the record to persist. */
  datatype Gate = Denied | Admitted(record: Record)

  /** The admission gate. A missing or expired record is replaced by a fresh
      one and admitted without comparing against the limit; a live record is
      admitted unchanged while its count is below the limit. */
  function CheckGate(t: Table, key: Key, lim: Limit, now: int): (g: Gate)
    ensures g.Denied? <==> key in t && !Expired(t[key], lim, now) && t[key].messagecount >= lim.count
    ensures (key !in t || Expired(t[key], lim, now)) ==> g == Admitted(Fresh(now))
    ensures key in t && !Expired(t[key], lim, now) && g.Admitted? ==>
              g.record == t[key] && t[key].messagecount < lim.count
  {
    if key in t then
      var u := t[key];
      if Expired(u, lim, now) then Admitted(Fresh(now))
      else if u.messagecount >= lim.count then Denied
      else Admitted(u)
    else
      Admitted(Fresh(now))
  }

  /** Counting one answered question. */
  function Commit(r: Record, now: int): Record
  {
    r.(messagecount := r.messagecount + 1, lastmessage := now)
  }
}

=== FILE: wrappers.dfy ===
/** Optional values: the model's stand-in for PHP's `isset`, JSON's missing
    fields and JavaScript's `undefined`. */
module Wrappers {

  datatype Option<+T> = None | Some(value: T) {

    /** The value, or `default` when there is none (PHP's `??`). */
    function GetOr(default: T): T
    {
      match this
      case Some(v) => v
      case None => default
    }
  }
}
